=== FILE: README.md ===
# kitsunet block tracker — Dafny model

This project models the block-header tracker of kitsunet. Peers gossip block
headers on a publish/subscribe topic. Each tracker is meant to keep the highest
block it has seen as its tip (see "Tip height" under Left out) and caches every block it decodes. It also gates the
transport's relaying so that one block height goes to one peer at most once,
until that peer's record is evicted.

Two variants of the tracker are modelled:

- `src/index.js` (class `BlockTracker`):
  - module `Tracker` holds the state record (`currentBlock`, `oldBlock`, the block cache `blocks`, the per-peer record `peerHeader`);
  - `Tracker.Handle` is the topic message handler `_handler`, and `Tracker.HandleAsWritten` is the same handler with the tip's number read as 0 (see Findings);
  - `Tracker.Hook` is the forward gate `_hook`;
  - the getters `GetCurrentBlock`, `GetOldBlock` and `GetBlockByNumber` model `getCurrentBlock`, `getOldBlock` and `getBlockByNumber`, and `GetLatestBlock` models `getLatestBlock` up to its suspension point;
  - module `TipRuns` states the handler's properties over any sequence of delivered messages;
  - module `DedupRuns` states the gate's properties over any sequence of relay attempts;
  - module `Lifecycle` models `start`/`stop`.
- `src/block-tracker.js`, the older variant, is module `LegacyTracker`. It holds the `enable` switch and the listener `trackerCb` with its publish decision. It also holds the forward hook as written and as evidently intended.

Every operation is a pure function of an immutable state. It returns the new
state together with the emitted events, the gate's verdict or the transport
calls. Block decoding and JSON parsing are function parameters. Heights are
naturals. The RPC query's answer is an input.

## Model

| member | source | states |
|---|---|---|
| Tracker.Handle | src/index.js:38-56 | An undecodable payload, or one without a header, changes nothing and emits nothing. A decoded block is cached under its height and no other cache entry changes. It becomes the tip exactly when it is higher than the tip, a missing tip counting as 0. Then the previous tip moves to `oldBlock`; otherwise tip and previous tip are unchanged. The tip height becomes the larger of the old tip height and the block's height. On an advance the events are exactly `latest`, then `sync(block, previous tip)`, then `block`; otherwise the only event is `block`. The `block` event comes last, carrying the tip after the update. Peer records are untouched, and a tip above 0 with a strictly lower previous tip is preserved. |
| Tracker.GetCurrentBlock | src/index.js:88-90 | Returns the tip. In a valid state it is present exactly when the tip height is above 0. |
| Tracker.GetOldBlock | src/index.js:84-86 | Returns the previous tip. In a valid state, when present, it lies strictly below a present tip. |
| Tracker.GetBlockByNumber | src/index.js:101-104 | Answers exactly for the heights in the cache, with the block cached there. |
| Tracker.GetLatestBlock | src/index.js:92-93 | Answers at once with the tip when there is one, and has to wait exactly when there is none. |
| Tracker.Hook | src/index.js:58-82 | A decode failure or a missing header yields an error and leaves the state unchanged. A decoded height goes to a peer exactly when that peer has not had it yet. Afterwards the pair is recorded. A repeat is skipped with the "already forwarded" verdict and no change. No other (peer, height) record changes. The tip, previous tip and block cache are never touched. |
| Tracker.Ingest | src/index.js:38-56 | Given the number read as the tip's height: an undecodable message changes nothing and emits nothing. A decoded block is cached under its height, and peer records are untouched. If its height exceeds that number, it becomes the tip, the old tip becomes the previous tip, and `latest` announces it. Otherwise tip and previous tip are unchanged and nothing is announced. Every decoded message produces exactly one `block` event. |
| Tracker.HandleAsWritten | src/index.js:45-48 | As written, if the tip's number is read as 0: an undecodable message changes nothing. Every decoded block above height 0 becomes the tip, even one lower than the current tip. The old tip becomes the previous tip and `latest` announces the new one. A height-0 block leaves tip and previous tip unchanged and announces nothing. Every decoded block is cached under its height. |
| TipRuns.Run | src/index.js:45-52 | Over any sequence of messages the tip height never decreases. Peer records are untouched. The tip invariant is kept. |
| TipRuns.RunTipIsMax | src/index.js:45-48 | After any sequence of messages, the tip height is the maximum of the starting tip height and every decoded height. |
| TipRuns.RunFromInitial | src/index.js:88-98 | From a fresh tracker whose highest decoded height is above 0, the tip is a block of that height and `getLatestBlock` answers at once with it. If that height is 0 there is no tip and `getLatestBlock` has to wait. |
| TipRuns.RunTipMonotone | src/index.js:45-48 | The tip height after any prefix of a run is at most the tip height after the whole run. |
| TipRuns.RunLatestRising | src/index.js:46-50 | The blocks announced by `latest` during a run have strictly rising heights. Each lies above the starting tip and at most at the final tip. |
| TipRuns.RunTipHistory | src/index.js:47-48 | After a run, `getCurrentBlock` is the last block announced by `latest` and `getOldBlock` the one announced before it. With fewer announcements, the starting tip and previous tip shift in. |
| TipRuns.RunBlockEvents | src/index.js:52 | A run emits exactly one `block` event per decoded message. |
| TipRuns.RunCache | src/index.js:44 | After a run, `getBlockByNumber(h)` returns the last block delivered at height `h`, whether or not it became the tip. A height never delivered keeps its earlier answer. |
| TipRuns.ScenarioFiveThreeSeven | src/index.js:38-56 | Heights 5, 3, 7 on a fresh tracker: `latest` announces 5 and then 7. The tip is the height-7 block and the previous tip the height-5 block. The height-3 block is retrievable from the cache. |
| TipRuns.ScenarioFiveThreeSevenAsWritten | src/index.js:45-52 | As written with the tip's number read as 0, heights 5, 3, 7 make `latest` announce 5, 3 and 7. The tip ends as the height-7 block and the previous tip as the height-3 block. |
| DedupRuns.HookRun | src/index.js:58-82 | Any sequence of relay attempts leaves the tip, previous tip and block cache unchanged and gives one verdict per attempt. |
| DedupRuns.ForwardedOnce | src/index.js:70-81 | Over any sequence of relay attempts, a (peer, height) pair is let through exactly once if it was not recorded before and some attempt carries it, and never otherwise. Afterwards it is recorded exactly when it was before or some attempt carried it. |
| DedupRuns.ScenarioTenTenEleven | src/index.js:70-81 | One peer offered heights 10, 10, 11 gets: forward, already forwarded, forward. |
| Lifecycle.DriveAsWritten | src/index.js:110-122 | As written, `started` stays false under any sequence of `start`/`stop` calls. Every `start` adds one more registration of the gate and the handler, and `stop` removes none. |
| Lifecycle.StartTwiceSubscribesTwice | src/index.js:110-115 | Two `start` calls leave the handler subscribed twice, and a `stop` after them does not undo that. |
| Lifecycle.StartFixed | src/index.js:110-115 | `start` with the flag maintained leaves the tracker started and changes nothing if it already was. |
| Lifecycle.StopFixed | src/index.js:117-122 | `stop` with the flag maintained leaves the tracker stopped and changes nothing if it already was. |
| Lifecycle.DriveFixedBalanced | src/index.js:110-122 | With the flag maintained, the gate and the handler are registered exactly once while started and never while stopped, for any call sequence. |
| LegacyTracker.Enable | src/block-tracker.js:37-46 | `enable(flag)` sets the flag. The same flag again changes nothing. The listener count rises exactly on a false-to-true flip and falls only on a true-to-false flip. The hook's map is untouched. "Listener attached exactly while enabled" is preserved. |
| LegacyTracker.EnableAll | src/block-tracker.js:37-46 | After a sequence of `enable` calls the flag is the last one given, and the hook's map is untouched. |
| LegacyTracker.EnableAllBalanced | src/block-tracker.js:21-46 | The tracker starts disabled. After any sequence of `enable` calls, `trackerCb` is attached once while enabled and not at all otherwise. |
| LegacyTracker.TrackerCb | src/block-tracker.js:25-35 | A failed block query publishes nothing. A successful one publishes exactly once on the `block-header` topic, with hop budget -1, carrying the block's JSON text (`null` when the node returned no block). |
| LegacyTracker.Notify | src/block-tracker.js:41 | An announcement from the chain source makes every attached copy of `trackerCb` run. Only its publications occur. |
| LegacyTracker.PublishesOnlyWhenEnabled | src/block-tracker.js:25-46 | After any sequence of `enable` calls, an announcement publishes exactly once if the tracker is enabled and the query succeeds, and never otherwise. |
| LegacyTracker.ForwardHook | src/block-tracker.js:56-76 | As written: a payload that fails to parse reports the parse error, and a falsy one reports "No block in message!". For a parsed block the hook returns true without calling the callback. The skip branch is never taken and the state never changes. |
| LegacyTracker.ForwardHookNeverSkips | src/block-tracker.js:68-75 | As written, over any sequence of attempts on a fresh tracker, `blocks` stays empty. Every attempt whose payload parses to a block returns true without calling the callback, however often it was already offered to that peer. The skip branch is never taken. |
| LegacyTracker.RepeatedBlockNeverSkipped | src/block-tracker.js:68-75 | As written, the same block offered twice to the same peer is never skipped. Both attempts return true without calling the callback. |
| LegacyTracker.ForwardHookFixed | src/block-tracker.js:56-76 | As intended: parse errors and falsy payloads are reported with no state change. The hook returns true exactly when the block is not yet recorded for that peer, and the block is then recorded. A repeat is skipped with "skipping block n" and no change. Other records are untouched. |
| LegacyTracker.FixedHookSkipsRepeat | src/block-tracker.js:68-75 | As intended, the same block offered twice to the same peer returns true once and is then skipped. |

## Left out

- Cache eviction: the `lru-cache` instances have a capacity of 100, a 5-minute `maxAge` and recency ordering. Here they are unbounded maps and sets. Every cache and dedup property holds "until evicted", because eviction is capacity- and time-based library behaviour.
- Cache keys: blocks are cached under `addHexPrefix` of the header number's hex text, and `getBlockByNumber` adds the same prefix to its argument. The model keys the cache by height. This assumes a canonical number encoding, under which the key is a function of the height. The hex formatting is library string handling.
- Height conversion: `bufferToInt` fails above 53 bits. Heights here are unbounded naturals.
- Tip height: the handler reads the new height from `header.number` (src/index.js:41-42, 46) but the tip's height from `this.currentBlock.number` on the block object (src/index.js:45). If the block object has no `number` of its own, that read is `bufferToInt(undefined)`, which is 0. Then every block above height 0 would become the tip, and heights 5, 3, 7 would announce 5, 3, 7. `Tracker.HandleAsWritten` models that reading. `Tracker.Handle` and every tip theorem built on it (`RunTipIsMax`, `RunLatestRising`, `RunTipHistory`, `ScenarioFiveThreeSeven`) assume the intended comparison against the tip's header height. The block library is not part of this model, so which reading holds is open.
- Listener exceptions: a `latest` or `sync` listener that throws would be caught by the handler's `catch`, and the remaining events would be skipped. Event listeners are outside the model.
- The waiting branch of `getLatestBlock` is left out. It suspends until the next `latest` event, which is an asynchronous one-shot wait.
- `getBlockByNumber` answers only from the cache. It never queries a chain source, and neither does the model.
- Transport calls are left out: `publish`/`_publish` (serialize and publish), `subscribe`, `unsubscribe`, `addFrwdHooks`, `removeFrwdHooks`, and logging. `Lifecycle` only counts registrations, and `LegacyTracker` records publications as effects.
- Block decoding (RLP via the block library), `JSON.parse`, `JSON.stringify` and `serialize` are abstract. They appear as a decoder or parser parameter, or as a block's JSON text.
- `src/eth-provider/index.js` only constructs an HTTP provider, a polling block tracker and a query client. The RPC query's answer is an input of `TrackerCb`. `Notify` gives every attached listener the same answer.
- Construction of the older tracker is left out: its argument assertions and its topic subscription at `src/block-tracker.js:11-23`.
- LegacyTracker.Enable: only boolean arguments are modelled. With a truthy non-boolean argument, `!==` would let a second call attach the listener again.
- LegacyTracker.ForwardHook: the contract does not pin the outcome when the peer is already a key of `blocks` (`true.has` throws a TypeError). That state is unreachable, since nothing writes `blocks`.
- What the transport does with the older hook's `return true` is left out, since the hook never calls its callback on that path.

## Findings

| source | as written | input that shows it | evidently intended | confidence | as-written member | corrected member |
|---|---|---|---|---|---|---|
| src/index.js:110-122 | `started` starts false and is never set, so every `start` registers the forward gate and subscribes the handler again, and `stop` never unregisters | `start()`, `start()`, `stop()` on a new tracker | `start` and `stop` idempotent, one registration while started and none after `stop` | high (not executed) | Lifecycle.StartTwiceSubscribesTwice | Lifecycle.DriveFixedBalanced |
| src/block-tracker.js:68-75 | the per-peer set is the boolean result of `blocks.has(id)` or a fresh set, and is never stored, so `blocks` stays empty and the skip branch is unreachable | the same block offered twice to the same peer | the second offer is skipped | high that the skip branch is never taken; what the transport then does with `return true` is unverified (not executed) | LegacyTracker.RepeatedBlockNeverSkipped | LegacyTracker.FixedHookSkipsRepeat |
| src/index.js:45 | the tip's height is read from `this.currentBlock.number` on the block object, while the new height comes from `header.number`; without a `number` on the block object the tip reads as 0 | heights 5, 3, 7 on a new tracker | the tip is the highest block seen, so `latest` announces 5 and 7 only | low: depends on the block library, which is not part of this model (not executed) | TipRuns.ScenarioFiveThreeSevenAsWritten | TipRuns.RunTipIsMax |

=== FILE: dedup_runs.dfy ===
/**
  Properties of the forward gate of `src/index.js` over whole sequences of
  relay attempts: each (peer, height) pair is let through at most once, and
  exactly once if it was not already recorded and some attempt carries it.
*/
module DedupRuns {
  import opened Wire
  import opened Tracker

  /** The state after a sequence of attempts and the gate's verdict on each. */
  datatype Trace = Trace(state: State, verdicts: seq<Verdict>)

  /** Consults the gate for every attempt in order. */
  function HookRun(decode: Decoder, s: State, attempts: seq<Attempt>): (r: Trace)
    ensures |r.verdicts| == |attempts|
    ensures r.state.currentBlock == s.currentBlock && r.state.oldBlock == s.oldBlock
    ensures r.state.blocks == s.blocks
    decreases |attempts|
  {
    if attempts == [] then Trace(s, [])
    else
      var prior := HookRun(decode, s, attempts[..|attempts| - 1]);
      var a := attempts[|attempts| - 1];
      var step := Hook(decode, prior.state, a.peer, a.data);
      Trace(step.state, prior.verdicts + [step.verdict])
  }

  /** Whether the attempt goes to `peer` with a payload that decodes to height `h`. */
  predicate Carries(decode: Decoder, a: Attempt, peer: PeerId, h: nat) {
    a.peer == peer && decode(a.data).Decoded? && decode(a.data).block.height == h
  }

  /** Whether any attempt goes to `peer` with height `h`. */
  predicate Mentions(decode: Decoder, attempts: seq<Attempt>, peer: PeerId, h: nat) {
    exists i :: 0 <= i < |attempts| && Carries(decode, attempts[i], peer, h)
  }

  /** An attempt sequence mentions a pair exactly when its prefix does or its last attempt carries it. */
  lemma MentionsSnoc(decode: Decoder, attempts: seq<Attempt>, peer: PeerId, h: nat)
    requires attempts != []
    ensures Mentions(decode, attempts, peer, h)
        <==> (Mentions(decode, attempts[..|attempts| - 1], peer, h)
              || Carries(decode, attempts[|attempts| - 1], peer, h))
  {
    var n := |attempts| - 1;
    if Mentions(decode, attempts, peer, h) && !Carries(decode, attempts[n], peer, h) {
      var i :| 0 <= i < |attempts| && Carries(decode, attempts[i], peer, h);
      assert attempts[..n][i] == attempts[i];
    }
    if Mentions(decode, attempts[..n], peer, h) {
      var i :| 0 <= i < n && Carries(decode, attempts[..n][i], peer, h);
      assert attempts[i] == attempts[..n][i];
    }
  }

  /** How many attempts to `peer` with height `h` were let through. */
  function AllowCount(decode: Decoder, attempts: seq<Attempt>, verdicts: seq<Verdict>, peer: PeerId, h: nat): nat
    requires |verdicts| == |attempts|
  {
    if attempts == [] then 0
    else
      var n := |attempts| - 1;
      AllowCount(decode, attempts[..n], verdicts[..n], peer, h)
        + (if Carries(decode, attempts[n], peer, h) && verdicts[n].Forward? then 1 else 0)
  }

  /** Each (peer, height) pair is forwarded exactly once if it was not
      recorded before the run and some attempt carries it, and never
      otherwise; afterwards the pair is recorded exactly when it was before or
      some attempt carried it. */
  lemma {:induction false} ForwardedOnce(decode: Decoder, s: State, attempts: seq<Attempt>, peer: PeerId, h: nat)
    ensures var r := HookRun(decode, s, attempts);
      && AllowCount(decode, attempts, r.verdicts, peer, h)
           == (if !Forwarded(s, peer, h) && Mentions(decode, attempts, peer, h) then 1 else 0)
      && (Forwarded(r.state, peer, h) <==> Forwarded(s, peer, h) || Mentions(decode, attempts, peer, h))
    decreases |attempts|
  {
    if attempts != [] {
      var n := |attempts| - 1;
      var prior := HookRun(decode, s, attempts[..n]);
      var r := HookRun(decode, s, attempts);
      ForwardedOnce(decode, s, attempts[..n], peer, h);
      MentionsSnoc(decode, attempts, peer, h);
      assert r.verdicts[..n] == prior.verdicts;
    }
  }

  /** Peer P1 offered heights 10, 10, 11 on a fresh tracker: let through, skipped, let through. */
  lemma ScenarioTenTenEleven(decode: Decoder, p1: PeerId, m10: Bytes, m11: Bytes, b10: Block, b11: Block)
    requires decode(m10) == Decoded(b10) && b10.height == 10
    requires decode(m11) == Decoded(b11) && b11.height == 11
    ensures HookRun(decode, Initial, [Attempt(p1, m10), Attempt(p1, m10), Attempt(p1, m11)]).verdicts
         == [Forward(m10), AlreadyForwarded(10), Forward(m11)]
  {
    var a10 := Attempt(p1, m10);
    var a11 := Attempt(p1, m11);
    var attempts := [a10, a10, a11];
    assert attempts[..2] == [a10, a10] && [a10, a10][..1] == [a10] && [a10][..0] == [];
    var t1 := HookRun(decode, Initial, [a10]);
    assert HookRun(decode, Initial, []) == Trace(Initial, []);
    assert t1.verdicts == [Forward(m10)] && Forwarded(t1.state, p1, 10);
    assert !Forwarded(t1.state, p1, 11);
    var t2 := HookRun(decode, Initial, [a10, a10]);
    assert t2.verdicts == [Forward(m10), AlreadyForwarded(10)];
    assert !Forwarded(t2.state, p1, 11);
  }
}

=== FILE: legacy_tracker.dfy ===
/**
  The older tracker of `src/block-tracker.js`: an `enable` switch that
  attaches or detaches one listener on the polling chain source, the listener
  (`trackerCb`) that fetches the announced block and publishes it, and a
  forward hook meant to keep a block from being forwarded twice to one peer.

  JSON parsing of a payload and the RPC query are abstract: the parser is a
  parameter and the query's answer is an input.
*/
module LegacyTracker {
  import opened Wrappers
  import opened Wire

  /** What `JSON.parse` of a payload's text yields: a throw, a falsy value,
      or a block object with its `number` field. */
  datatype Parsed = Unparsable(error: string) | Falsy | BlockObject(number: string)

  type Parser = Bytes -> Parsed

  /** The `enabled` flag, how many times `trackerCb` is attached to the
      source's `latest` event, and the `blocks` map of the forward hook. */
  datatype LegacyState = LegacyState(enabled: bool, listeners: nat, blocks: map<PeerId, set<string>>)

  /** Right after construction. */
  const Initial: LegacyState := LegacyState(false, 0, map[])

  /** The topic the tracker publishes on. */
  const Topic: string := "block-header"

  /** The error the forward hook reports for a payload that parses to a falsy value. */
  const NoBlockInMessage: string := "No block in message!"

  /** `trackerCb` is attached exactly while the tracker is enabled. */
  predicate Balanced(s: LegacyState) {
    s.listeners == (if s.enabled then 1 else 0)
  }

  // ---------------------------------------------------------------------
  // The enable switch

  /** `enable(flag)`: only a change of the flag attaches (false to true) or
      detaches (true to false) the listener; the same flag again is a no-op. */
  function Enable(s: LegacyState, flag: bool): (r: LegacyState)
    ensures r.enabled == flag
    ensures flag == s.enabled ==> r == s
    ensures r.listeners > s.listeners <==> !s.enabled && flag
    ensures r.listeners < s.listeners ==> s.enabled && !flag
    ensures r.blocks == s.blocks
    ensures Balanced(s) ==> Balanced(r)
  {
    if s.enabled != flag then
      if flag then s.(enabled := true, listeners := s.listeners + 1)
      else s.(enabled := false, listeners := if s.listeners > 0 then s.listeners - 1 else 0)
    else s
  }

  /** Calls `enable` with each flag in turn. */
  function EnableAll(s: LegacyState, flags: seq<bool>): (r: LegacyState)
    ensures r.blocks == s.blocks
    ensures flags != [] ==> r.enabled == flags[|flags| - 1]
    decreases |flags|
  {
    if flags == [] then s
    else Enable(EnableAll(s, flags[..|flags| - 1]), flags[|flags| - 1])
  }

  /** Whatever the sequence of `enable` calls, the listener is attached once
      while enabled and not at all otherwise. */
  lemma {:induction false} EnableAllBalanced(flags: seq<bool>)
    ensures Balanced(EnableAll(Initial, flags))
    ensures flags == [] ==> !EnableAll(Initial, flags).enabled
    decreases |flags|
  {
    if flags != [] {
      EnableAllBalanced(flags[..|flags| - 1]);
    }
  }

  // ---------------------------------------------------------------------
  // The source listener

  /** A block object the RPC query answered with, as its JSON text. */
  datatype RpcBlock = RpcBlock(json: string)

  /** The RPC query's answer: an error, or a block (JSON `null` when the node has none). */
  datatype QueryResult = QueryError(error: string) | QueryOk(block: Option<RpcBlock>)

  /** A call on the transport. */
  datatype Effect = Publish(topic: string, payload: string, hops: int)

  /** `JSON.stringify` of the answer. */
  function Stringify(b: Option<RpcBlock>): string {
    if b.Some? then b.value.json else "null"
  }

  /** `trackerCb` once its block query has answered: nothing is published on a
      query error, and otherwise exactly one publication on the topic, with an
      unlimited hop budget, carrying the answer as JSON. */
  function TrackerCb(q: QueryResult): (effects: seq<Effect>)
    ensures q.QueryError? ==> effects == []
    ensures q.QueryOk? ==> effects == [Publish(Topic, Stringify(q.block), -1)]
  {
    match q
    case QueryError(_) => []
    case QueryOk(block) => [Publish(Topic, Stringify(block), -1)]
  }

  /** `n` copies of `effects`, one after the other. */
  function Repeat(effects: seq<Effect>, n: nat): (r: seq<Effect>)
    ensures |r| == n * |effects|
    ensures forall e :: e in r ==> e in effects
  {
    if n == 0 then [] else Repeat(effects, n - 1) + effects
  }

  /** The source announces a new block: every attached copy of `trackerCb` runs. */
  function Notify(s: LegacyState, q: QueryResult): (effects: seq<Effect>)
    ensures |effects| == s.listeners * |TrackerCb(q)|
    ensures forall e :: e in effects ==> e in TrackerCb(q)
  {
    Repeat(TrackerCb(q), s.listeners)
  }

  /** After any sequence of `enable` calls, an announcement publishes exactly
      once if the tracker is enabled and the query succeeds, and never otherwise. */
  lemma {:induction false} PublishesOnlyWhenEnabled(flags: seq<bool>, q: QueryResult)
    ensures var s := EnableAll(Initial, flags);
      |Notify(s, q)| == (if s.enabled && q.QueryOk? then 1 else 0)
  {
    EnableAllBalanced(flags);
  }

  // ---------------------------------------------------------------------
  // The forward hook

  /** How the hook answers the transport. */
  datatype HookOutcome =
    | CallbackError(reason: string)   // the callback gets an error
    | CallbackSkip(reason: string)    // the callback gets the "skipping block" text
    | ReturnedTrue                    // the hook returns true; the callback is not called
    | Threw(reason: string)           // a TypeError escapes the hook

  datatype HookResult = HookResult(state: LegacyState, outcome: HookOutcome)

  /**
    The forward hook as written. `blocks.has(peer) || new Set()` is a boolean
    or a fresh empty set, never the peer's recorded set, and the set it adds
    the number to is dropped, so `blocks` is never written: the hook never
    skips, and never changes the state.
  */
  function ForwardHook(parse: Parser, s: LegacyState, peer: PeerId, data: Bytes): (r: HookResult)
    ensures r.state == s
    ensures !r.outcome.CallbackSkip?
    ensures parse(data).Unparsable? ==> r.outcome == CallbackError(parse(data).error)
    ensures parse(data).Falsy? ==> r.outcome == CallbackError(NoBlockInMessage)
    ensures parse(data).BlockObject? && peer !in s.blocks ==> r.outcome == ReturnedTrue
  {
    match parse(data)
    case Unparsable(error) => HookResult(s, CallbackError(error))
    case Falsy => HookResult(s, CallbackError(NoBlockInMessage))
    case BlockObject(number) =>
      if peer in s.blocks then
        // `true.has(...)`: not a function
        HookResult(s, Threw("peerBlocks.has is not a function"))
      else
        var peerBlocks: set<string> := {};
        if number in peerBlocks then HookResult(s, CallbackSkip("skipping block " + number))
        else HookResult(s, ReturnedTrue)
  }

  datatype HookTrace = HookTrace(state: LegacyState, outcomes: seq<HookOutcome>)

  /** Consults `hook` for every attempt in order. */
  function RunForwardHook(hook: (LegacyState, PeerId, Bytes) -> HookResult, s: LegacyState, attempts: seq<Attempt>): (r: HookTrace)
    ensures |r.outcomes| == |attempts|
    decreases |attempts|
  {
    if attempts == [] then HookTrace(s, [])
    else
      var prior := RunForwardHook(hook, s, attempts[..|attempts| - 1]);
      var a := attempts[|attempts| - 1];
      var step := hook(prior.state, a.peer, a.data);
      HookTrace(step.state, prior.outcomes + [step.outcome])
  }

  /** The hook as written, over any sequence of attempts on a fresh tracker:
      `blocks` stays empty and every attempt whose payload parses to a block is
      answered by returning true without calling the callback, however often
      that block was already offered to that peer: the skip branch is never taken. */
  lemma {:induction false} ForwardHookNeverSkips(parse: Parser, attempts: seq<Attempt>)
    ensures var r := RunForwardHook((s, p, d) => ForwardHook(parse, s, p, d), Initial, attempts);
      && r.state == Initial
      && (forall i :: 0 <= i < |attempts| && parse(attempts[i].data).BlockObject? ==> r.outcomes[i] == ReturnedTrue)
      && (forall i :: 0 <= i < |attempts| ==> !r.outcomes[i].CallbackSkip?)
    decreases |attempts|
  {
    if attempts != [] {
      var n := |attempts| - 1;
      ForwardHookNeverSkips(parse, attempts[..n]);
      var prior := RunForwardHook((s, p, d) => ForwardHook(parse, s, p, d), Initial, attempts[..n]);
      var r := RunForwardHook((s, p, d) => ForwardHook(parse, s, p, d), Initial, attempts);
      assert r.outcomes[..n] == prior.outcomes;
      forall i | 0 <= i < n
        ensures attempts[i] == attempts[..n][i] && r.outcomes[i] == prior.outcomes[i]
      {
      }
    }
  }

  /** The same block offered twice to the same peer is never skipped: both
      attempts return true without calling the callback. */
  lemma RepeatedBlockNeverSkipped(parse: Parser, peer: PeerId, data: Bytes)
    requires parse(data).BlockObject?
    ensures RunForwardHook((s, p, d) => ForwardHook(parse, s, p, d), Initial, [Attempt(peer, data), Attempt(peer, data)]).outcomes
         == [ReturnedTrue, ReturnedTrue]
  {
    ForwardHookNeverSkips(parse, [Attempt(peer, data), Attempt(peer, data)]);
  }

  /** Whether block `number` is recorded as sent to `peer`. */
  predicate Recorded(s: LegacyState, peer: PeerId, number: string) {
    peer in s.blocks && number in s.blocks[peer]
  }

  /**
    The forward hook as evidently intended: the peer's set is looked up and
    stored, so a block returns true for a peer the first time and is skipped
    every later time.
  */
  function ForwardHookFixed(parse: Parser, s: LegacyState, peer: PeerId, data: Bytes): (r: HookResult)
    ensures r.state.enabled == s.enabled && r.state.listeners == s.listeners
    ensures parse(data).Unparsable? ==> r == HookResult(s, CallbackError(parse(data).error))
    ensures parse(data).Falsy? ==> r == HookResult(s, CallbackError(NoBlockInMessage))
    ensures parse(data).BlockObject? ==>
      var n := parse(data).number;
      && (r.outcome == ReturnedTrue <==> !Recorded(s, peer, n))
      && (r.outcome != ReturnedTrue ==> r == HookResult(s, CallbackSkip("skipping block " + n)))
      && Recorded(r.state, peer, n)
      && (forall p, m :: p != peer || m != n ==> (Recorded(r.state, p, m) <==> Recorded(s, p, m)))
  {
    match parse(data)
    case Unparsable(error) => HookResult(s, CallbackError(error))
    case Falsy => HookResult(s, CallbackError(NoBlockInMessage))
    case BlockObject(number) =>
      var peerBlocks := if peer in s.blocks then s.blocks[peer] else {};
      if number in peerBlocks then HookResult(s, CallbackSkip("skipping block " + number))
      else HookResult(s.(blocks := s.blocks[peer := peerBlocks + {number}]), ReturnedTrue)
  }

  /** With the fix, the same block offered twice to the same peer returns true once, then is skipped. */
  lemma {:induction false} FixedHookSkipsRepeat(parse: Parser, peer: PeerId, data: Bytes)
    requires parse(data).BlockObject?
    ensures RunForwardHook((s, p, d) => ForwardHookFixed(parse, s, p, d), Initial, [Attempt(peer, data), Attempt(peer, data)]).outcomes
         == [ReturnedTrue, CallbackSkip("skipping block " + parse(data).number)]
  {
    var a := Attempt(peer, data);
    var hook := (s, p, d) => ForwardHookFixed(parse, s, p, d);
    assert [a, a][..1] == [a] && [a][..0] == [];
    assert RunForwardHook(hook, Initial, []) == HookTrace(Initial, []);
    var first := RunForwardHook(hook, Initial, [a]);
    assert first.outcomes == [ReturnedTrue];
  }
}

=== FILE: lifecycle.dfy ===
/**
  `start` and `stop` of `src/index.js`. The tracker guards both with its
  `started` flag, but nothing ever sets that flag, so as written every `start`
  registers the forward gate and subscribes the handler once more, and `stop`
  never unregisters anything. `StartFixed`/`StopFixed` model the evidently
  intended guard, which keeps exactly one registration while started.
*/
module Lifecycle {

  /** The `started` flag and how many times the forward gate and the message
      handler are currently registered with the transport. */
  datatype Registrations = Registrations(started: bool, forwardHooks: nat, subscriptions: nat)

  /** Right after construction: not started, nothing registered. */
  const Constructed: Registrations := Registrations(false, 0, 0)

  datatype Call = StartCall | StopCall

  function Release(n: nat): nat {
    if n > 0 then n - 1 else 0
  }

  // ---------------------------------------------------------------------
  // As written

  /** `start` as written: registers when not started, and leaves the flag alone. */
  function Start(r: Registrations): Registrations {
    if !r.started then r.(forwardHooks := r.forwardHooks + 1, subscriptions := r.subscriptions + 1)
    else r
  }

  /** `stop` as written: unregisters only when started. */
  function Stop(r: Registrations): Registrations {
    if r.started then r.(forwardHooks := Release(r.forwardHooks), subscriptions := Release(r.subscriptions))
    else r
  }

  function Drive(r: Registrations, calls: seq<Call>): Registrations
    decreases |calls|
  {
    if calls == [] then r
    else
      var prior := Drive(r, calls[..|calls| - 1]);
      if calls[|calls| - 1] == StartCall then Start(prior) else Stop(prior)
  }

  function StartCount(calls: seq<Call>): nat {
    if calls == [] then 0
    else StartCount(calls[..|calls| - 1]) + (if calls[|calls| - 1] == StartCall then 1 else 0)
  }

  /** As written, the flag stays false, every `start` adds one more
      registration of the gate and the handler, and `stop` removes none. */
  lemma {:induction false} DriveAsWritten(calls: seq<Call>)
    ensures Drive(Constructed, calls)
         == Registrations(false, StartCount(calls), StartCount(calls))
    decreases |calls|
  {
    if calls != [] {
      DriveAsWritten(calls[..|calls| - 1]);
    }
  }

  /** A concrete instance of `DriveAsWritten`: `start` twice leaves the
      handler subscribed twice, and a `stop` after it does not undo that. */
  lemma StartTwiceSubscribesTwice()
    ensures Start(Start(Constructed)).subscriptions == 2
    ensures Stop(Start(Start(Constructed))).subscriptions == 2
  {
  }

  // ---------------------------------------------------------------------
  // With the guard flag maintained

  /** `start` that records that it has started: a second call changes nothing. */
  function StartFixed(r: Registrations): (r': Registrations)
    ensures r'.started
    ensures r.started ==> r' == r
  {
    if !r.started then Registrations(true, r.forwardHooks + 1, r.subscriptions + 1)
    else r
  }

  /** `stop` that records that it has stopped: a second call changes nothing. */
  function StopFixed(r: Registrations): (r': Registrations)
    ensures !r'.started
    ensures !r.started ==> r' == r
  {
    if r.started then Registrations(false, Release(r.forwardHooks), Release(r.subscriptions))
    else r
  }

  function DriveFixed(r: Registrations, calls: seq<Call>): Registrations
    decreases |calls|
  {
    if calls == [] then r
    else
      var prior := DriveFixed(r, calls[..|calls| - 1]);
      if calls[|calls| - 1] == StartCall then StartFixed(prior) else StopFixed(prior)
  }

  /** With the flag maintained, the gate and the handler are registered
      exactly once while started and not at all while stopped, whatever the
      order of `start` and `stop` calls. */
  lemma {:induction false} DriveFixedBalanced(calls: seq<Call>)
    ensures var r := DriveFixed(Constructed, calls);
      r.forwardHooks == r.subscriptions == (if r.started then 1 else 0)
    decreases |calls|
  {
    if calls != [] {
      DriveFixedBalanced(calls[..|calls| - 1]);
    }
  }
}

=== FILE: tip_runs.dfy ===
/**
  Properties of the message handler of `src/index.js` over whole sequences of
  delivered messages: the tip only rises and ends at the highest height seen,
  `latest` events announce strictly rising tips, the previous tip is the one
  announced before the current one, and the cache answers with the last block
  delivered at each height.
*/
module TipRuns {
  import opened Wrappers
  import opened Wire
  import opened Tracker

  /** Handles `msgs` in delivery order, starting from `s`, collecting every event. */
  function Run(decode: Decoder, s: State, msgs: seq<Bytes>): (r: Step)
    ensures TipHeight(s) <= TipHeight(r.state)
    ensures r.state.peerHeader == s.peerHeader
    ensures Valid(s) ==> Valid(r.state)
    decreases |msgs|
  {
    if msgs == [] then Step(s, [])
    else
      var prior := Run(decode, s, msgs[..|msgs| - 1]);
      var last := Handle(decode, prior.state, msgs[|msgs| - 1]);
      Step(last.state, prior.events + last.events)
  }

  /** The height a payload decodes to, 0 when it does not decode. */
  function HeightOf(d: Decoding): nat {
    if d.Decoded? then d.block.height else 0
  }

  /** The highest height among the decodable messages, 0 if there is none. */
  function MaxHeight(decode: Decoder, msgs: seq<Bytes>): nat {
    if msgs == [] then 0
    else Max(MaxHeight(decode, msgs[..|msgs| - 1]), HeightOf(decode(msgs[|msgs| - 1])))
  }

  /** How many of the messages decode to a block. */
  function DecodedCount(decode: Decoder, msgs: seq<Bytes>): nat {
    if msgs == [] then 0
    else DecodedCount(decode, msgs[..|msgs| - 1]) + (if decode(msgs[|msgs| - 1]).Decoded? then 1 else 0)
  }

  /** The last block of height `h` among the messages, or `fallback` if none has that height. */
  function LastAt(decode: Decoder, msgs: seq<Bytes>, h: nat, fallback: Option<Block>): Option<Block> {
    if msgs == [] then fallback
    else
      var d := decode(msgs[|msgs| - 1]);
      if d.Decoded? && d.block.height == h then Some(d.block)
      else LastAt(decode, msgs[..|msgs| - 1], h, fallback)
  }

  /** Heights strictly rise along the sequence. */
  predicate StrictlyIncreasing(bs: seq<Block>) {
    forall i, j :: 0 <= i < j < |bs| ==> bs[i].height < bs[j].height
  }

  lemma {:induction false} LatestBlocksAppend(a: seq<Event>, b: seq<Event>)
    ensures LatestBlocks(a + b) == LatestBlocks(a) + LatestBlocks(b)
    ensures BlockEventCount(a + b) == BlockEventCount(a) + BlockEventCount(b)
    decreases |b|
  {
    if b == [] {
      assert a + b == a;
    } else {
      assert (a + b)[..|a + b| - 1] == a + b[..|b| - 1];
      LatestBlocksAppend(a, b[..|b| - 1]);
    }
  }

  /** The tip after a run is the highest of the starting tip and every delivered height. */
  lemma {:induction false} RunTipIsMax(decode: Decoder, s: State, msgs: seq<Bytes>)
    ensures TipHeight(Run(decode, s, msgs).state) == Max(TipHeight(s), MaxHeight(decode, msgs))
    decreases |msgs|
  {
    if msgs != [] {
      RunTipIsMax(decode, s, msgs[..|msgs| - 1]);
    }
  }

  /** From a freshly constructed tracker, the tip is the block of the highest
      height delivered, provided that height is above 0; otherwise there is no
      tip and `getLatestBlock` has to wait. */
  lemma {:induction false} RunFromInitial(decode: Decoder, msgs: seq<Bytes>)
    ensures var r := Run(decode, Initial, msgs);
      && (MaxHeight(decode, msgs) > 0 ==>
            && GetCurrentBlock(r.state).Some?
            && GetCurrentBlock(r.state).value.height == MaxHeight(decode, msgs)
            && GetLatestBlock(r.state) == Ready(GetCurrentBlock(r.state).value))
      && (MaxHeight(decode, msgs) == 0 ==>
            GetCurrentBlock(r.state) == None && GetLatestBlock(r.state) == Pending)
  {
    RunTipIsMax(decode, Initial, msgs);
  }

  /** The tip height never decreases: after any prefix of a run it is at most
      the tip height after the whole run. */
  lemma {:induction false} RunTipMonotone(decode: Decoder, s: State, msgs: seq<Bytes>, k: nat)
    requires k <= |msgs|
    ensures TipHeight(Run(decode, s, msgs[..k]).state) <= TipHeight(Run(decode, s, msgs).state)
    decreases |msgs| - k
  {
    if k < |msgs| {
      RunTipMonotone(decode, s, msgs, k + 1);
      assert msgs[..k + 1][..k] == msgs[..k];
    } else {
      assert msgs[..k] == msgs;
    }
  }

  /** The `latest` events of a run announce strictly rising heights, all above
      the starting tip, and none above the final tip. */
  lemma {:induction false} RunLatestRising(decode: Decoder, s: State, msgs: seq<Bytes>)
    ensures var r := Run(decode, s, msgs);
      var L := LatestBlocks(r.events);
      && StrictlyIncreasing(L)
      && (forall i :: 0 <= i < |L| ==> TipHeight(s) < L[i].height <= TipHeight(r.state))
    decreases |msgs|
  {
    if msgs != [] {
      var prior := Run(decode, s, msgs[..|msgs| - 1]);
      var data := msgs[|msgs| - 1];
      var last := Handle(decode, prior.state, data);
      RunLatestRising(decode, s, msgs[..|msgs| - 1]);
      LatestBlocksAppend(prior.events, last.events);
      var Lp := LatestBlocks(prior.events);
      if decode(data).Decoded? && Advances(prior.state, decode(data).block) {
        var b := decode(data).block;
        assert LatestBlocks(last.events) == [b];
        assert TipHeight(last.state) == b.height;
        var L := Lp + [b];
        assert LatestBlocks(prior.events + last.events) == L;
        forall i, j | 0 <= i < j < |L|
          ensures L[i].height < L[j].height
        {
          if j == |Lp| {
            assert L[i] == Lp[i] && L[j] == b;
          } else {
            assert L[i] == Lp[i] && L[j] == Lp[j];
          }
        }
        forall i | 0 <= i < |L|
          ensures TipHeight(s) < L[i].height <= TipHeight(last.state)
        {
          if i < |Lp| {
            assert L[i] == Lp[i];
          }
        }
      } else {
        assert LatestBlocks(last.events) == [];
        assert LatestBlocks(prior.events + last.events) == Lp;
      }
    }
  }

  /** After a run the tip is the last block `latest` announced and the previous
      tip the one announced before it; with fewer announcements the starting
      tips shift in. */
  lemma {:induction false} RunTipHistory(decode: Decoder, s: State, msgs: seq<Bytes>)
    ensures var r := Run(decode, s, msgs);
      var L := LatestBlocks(r.events);
      && GetCurrentBlock(r.state) == (if |L| > 0 then Some(L[|L| - 1]) else s.currentBlock)
      && GetOldBlock(r.state) == (if |L| > 1 then Some(L[|L| - 2])
                                  else if |L| == 1 then s.currentBlock
                                  else s.oldBlock)
    decreases |msgs|
  {
    if msgs != [] {
      var prior := Run(decode, s, msgs[..|msgs| - 1]);
      var data := msgs[|msgs| - 1];
      var last := Handle(decode, prior.state, data);
      RunTipHistory(decode, s, msgs[..|msgs| - 1]);
      LatestBlocksAppend(prior.events, last.events);
      var Lp := LatestBlocks(prior.events);
      if decode(data).Decoded? && Advances(prior.state, decode(data).block) {
        var b := decode(data).block;
        assert LatestBlocks(last.events) == [b];
        var L := Lp + [b];
        assert L[|L| - 1] == b;
        assert |L| > 1 ==> L[|L| - 2] == Lp[|Lp| - 1];
      } else {
        assert LatestBlocks(last.events) == [];
        assert LatestBlocks(prior.events + last.events) == Lp;
      }
    }
  }

  /** Every decoded message produces exactly one `block` event. */
  lemma {:induction false} RunBlockEvents(decode: Decoder, s: State, msgs: seq<Bytes>)
    ensures BlockEventCount(Run(decode, s, msgs).events) == DecodedCount(decode, msgs)
    decreases |msgs|
  {
    if msgs != [] {
      var prior := Run(decode, s, msgs[..|msgs| - 1]);
      var last := Handle(decode, prior.state, msgs[|msgs| - 1]);
      RunBlockEvents(decode, s, msgs[..|msgs| - 1]);
      LatestBlocksAppend(prior.events, last.events);
    }
  }

  /** After a run the cache answers, for every height, with the last block
      delivered at that height, whether or not it became the tip; heights
      never delivered keep their earlier answer. */
  lemma {:induction false} RunCache(decode: Decoder, s: State, msgs: seq<Bytes>, h: nat)
    ensures GetBlockByNumber(Run(decode, s, msgs).state, h)
         == LastAt(decode, msgs, h, GetBlockByNumber(s, h))
    decreases |msgs|
  {
    if msgs != [] {
      RunCache(decode, s, msgs[..|msgs| - 1], h);
    }
  }

  /** Heights 5, 3, 7 delivered to a fresh tracker: `latest` announces 5 then
      7, the previous tip is the height-5 block, and the height-3 block is in
      the cache though it never became the tip. */
  lemma ScenarioFiveThreeSeven(decode: Decoder, m5: Bytes, m3: Bytes, m7: Bytes, b5: Block, b3: Block, b7: Block)
    requires decode(m5) == Decoded(b5) && b5.height == 5
    requires decode(m3) == Decoded(b3) && b3.height == 3
    requires decode(m7) == Decoded(b7) && b7.height == 7
    ensures var r := Run(decode, Initial, [m5, m3, m7]);
      && LatestBlocks(r.events) == [b5, b7]
      && GetCurrentBlock(r.state) == Some(b7)
      && GetOldBlock(r.state) == Some(b5)
      && GetBlockByNumber(r.state, 3) == Some(b3)
  {
    var msgs := [m5, m3, m7];
    assert msgs[..2] == [m5, m3] && [m5, m3][..1] == [m5] && [m5][..0] == [];
    var r1 := Run(decode, Initial, [m5]);
    var h3 := Handle(decode, r1.state, m3);
    var r2 := Run(decode, Initial, [m5, m3]);
    var h7 := Handle(decode, r2.state, m7);
    var h5 := Handle(decode, Initial, m5);
    assert Run(decode, Initial, []) == Step(Initial, []);
    assert r1 == Step(h5.state, [] + h5.events);
    assert [] + h5.events == h5.events;
    assert r1.state.currentBlock == Some(b5) && LatestBlocks(r1.events) == [b5];
    assert r2 == Step(h3.state, r1.events + h3.events);
    LatestBlocksAppend(r1.events, h3.events);
    assert r2.state.currentBlock == Some(b5) && LatestBlocks(r2.events) == [b5];
    assert GetBlockByNumber(r2.state, 3) == Some(b3);
    LatestBlocksAppend(r2.events, h7.events);
  }

  /** The same heights 5, 3, 7 through `_handler` as written, with the tip's
      number read as 0: `latest` announces 5, 3 and 7, and the height-3 block
      ends up as the previous tip. */
  lemma ScenarioFiveThreeSevenAsWritten(decode: Decoder, m5: Bytes, m3: Bytes, m7: Bytes, b5: Block, b3: Block, b7: Block)
    requires decode(m5) == Decoded(b5) && b5.height == 5
    requires decode(m3) == Decoded(b3) && b3.height == 3
    requires decode(m7) == Decoded(b7) && b7.height == 7
    ensures var r5 := HandleAsWritten(decode, Initial, m5);
      var r3 := HandleAsWritten(decode, r5.state, m3);
      var r7 := HandleAsWritten(decode, r3.state, m7);
      && LatestBlocks(r5.events + r3.events + r7.events) == [b5, b3, b7]
      && GetCurrentBlock(r7.state) == Some(b7)
      && GetOldBlock(r7.state) == Some(b3)
  {
    var r5 := HandleAsWritten(decode, Initial, m5);
    var r3 := HandleAsWritten(decode, r5.state, m3);
    var r7 := HandleAsWritten(decode, r3.state, m7);
    LatestBlocksAppend(r5.events, r3.events);
    LatestBlocksAppend(r5.events + r3.events, r7.events);
  }
}

=== FILE: tracker.dfy ===
/**
  The header tracker of `src/index.js` (class BlockTracker): a tip state
  machine fed by the broadcast topic's message handler, a cache of every
  decoded block keyed by its number, and the per-peer forward gate that the
  transport consults before relaying a block to a peer.

  Block decoding is abstract: every operation takes the decoder as a
  parameter. The hex-string cache key is collapsed into the block height, and
  the LRU caches are unbounded maps (no eviction).
*/
module Tracker {
  import opened Wrappers
  import opened Wire

  /** A decoded block: the height read from its header, and the rest, opaque. */
  datatype Block = Block(height: nat, body: Bytes)

  /** What the block decoder makes of a wire payload. */
  datatype Decoding =
    | Malformed(reason: string)   // the block constructor threw
    | Headerless                  // a block object without a header
    | Decoded(block: Block)

  type Decoder = Bytes -> Decoding

  /** The tracker's own state: the tip, the tip before the last advance,
      the block cache and the record of heights forwarded to each peer. */
  datatype State = State(
    currentBlock: Option<Block>,
    oldBlock: Option<Block>,
    blocks: map<nat, Block>,
    peerHeader: map<PeerId, set<nat>>)

  /** The state right after construction. */
  const Initial: State := State(None, None, map[], map[])

  /** Events emitted by the message handler. */
  datatype Event =
    | LatestEvent(block: Block)                       // `latest`: the new tip
    | SyncEvent(block: Block, oldBlock: Option<Block>) // `sync`: new tip and the previous one
    | BlockEvent(tip: Option<Block>)                  // `block`: the tip after the update

  /** The result of handling one message: the new state and the events emitted, in order. */
  datatype Step = Step(state: State, events: seq<Event>)

  /** Why the forward gate refused to relay. */
  datatype HookError = DecodeFailed(reason: string) | NoBlockInMessage

  /** The forward gate's answer to the transport: relay the message, skip it
      because the peer already has that height, or fail. */
  datatype Verdict =
    | Forward(data: Bytes)
    | AlreadyForwarded(height: nat)
    | Failed(error: HookError)

  datatype HookStep = HookStep(state: State, verdict: Verdict)

  /** The answer of `getLatestBlock` without suspending: the tip if there is
      one, otherwise the caller would wait for the next `latest` event. */
  datatype LatestAnswer = Ready(block: Block) | Pending

  // ---------------------------------------------------------------------
  // Queries

  /** The larger of two naturals. */
  function Max(a: nat, b: nat): (r: nat)
    ensures a <= r && b <= r
    ensures r == a || r == b
  {
    if a < b then b else a
  }


  /** Height of the tip, counting a missing tip as height 0. */
  function TipHeight(s: State): nat {
    if s.currentBlock.Some? then s.currentBlock.value.height else 0
  }

  /** A decoded block advances the tip when it is strictly higher. */
  predicate Advances(s: State, b: Block) {
    b.height > TipHeight(s)
  }

  /** The tip is always above height 0, and the previous tip is always
      strictly below the current one. */
  predicate Valid(s: State) {
    && (s.currentBlock.Some? ==> s.currentBlock.value.height > 0)
    && (s.oldBlock.Some? ==> s.currentBlock.Some? && s.oldBlock.value.height < s.currentBlock.value.height)
  }

  /** Whether height `h` has already been forwarded to `peer`. */
  predicate Forwarded(s: State, peer: PeerId, h: nat) {
    peer in s.peerHeader && h in s.peerHeader[peer]
  }

  /** `getCurrentBlock`: the tip, or none before the first advance. */
  function GetCurrentBlock(s: State): (r: Option<Block>)
    ensures r == s.currentBlock
    ensures Valid(s) ==> (r.Some? <==> TipHeight(s) > 0)
  {
    s.currentBlock
  }

  /** `getOldBlock`: the tip before the last advance, or none. */
  function GetOldBlock(s: State): (r: Option<Block>)
    ensures r == s.oldBlock
    ensures Valid(s) && r.Some? ==> s.currentBlock.Some? && r.value.height < TipHeight(s)
  {
    s.oldBlock
  }

  /** `getBlockByNumber`: looks a block up in the cache by its number. */
  function GetBlockByNumber(s: State, h: nat): (r: Option<Block>)
    ensures r.Some? <==> h in s.blocks
    ensures r.Some? ==> r.value == s.blocks[h]
  {
    if h in s.blocks then Some(s.blocks[h]) else None
  }

  /** `getLatestBlock` up to its suspension point. */
  function GetLatestBlock(s: State): (r: LatestAnswer)
    ensures r == Pending <==> s.currentBlock == None
    ensures r.Ready? ==> s.currentBlock == Some(r.block)
  {
    if s.currentBlock.Some? then Ready(s.currentBlock.value) else Pending
  }

  // ---------------------------------------------------------------------
  // Event stream helpers

  /** The blocks carried by the `latest` events, in order. */
  function LatestBlocks(events: seq<Event>): seq<Block> {
    if events == [] then []
    else
      var rest := LatestBlocks(events[..|events| - 1]);
      var e := events[|events| - 1];
      if e.LatestEvent? then rest + [e.block] else rest
  }

  /** How many `block` events there are. */
  function BlockEventCount(events: seq<Event>): nat {
    if events == [] then 0
    else
      BlockEventCount(events[..|events| - 1])
        + (if events[|events| - 1].BlockEvent? then 1 else 0)
  }

  // ---------------------------------------------------------------------
  // Operations

  /**
    The topic message handler. A payload that does not decode to a block with
    a header changes nothing and emits nothing. A decoded block is cached under
    its number; it becomes the tip exactly when it is higher than the tip (a
    missing tip counting as 0), the old tip becoming the previous one, and only
    then are `latest` and `sync` emitted. Every decoded block ends with one
    `block` event carrying the tip after the update.
  */
  function Handle(decode: Decoder, s: State, data: Bytes): (r: Step)
    ensures r.state.peerHeader == s.peerHeader
    ensures !decode(data).Decoded? ==> r.state == s && r.events == []
    ensures decode(data).Decoded? ==>
      var b := decode(data).block;
      && GetBlockByNumber(r.state, b.height) == Some(b)
      && (forall h :: h != b.height ==> GetBlockByNumber(r.state, h) == GetBlockByNumber(s, h))
      && (r.state.currentBlock == Some(b) <==> Advances(s, b) || s.currentBlock == Some(b))
      && (Advances(s, b) ==> r.state.currentBlock == Some(b) && r.state.oldBlock == s.currentBlock)
      && (!Advances(s, b) ==> r.state.currentBlock == s.currentBlock && r.state.oldBlock == s.oldBlock)
      && TipHeight(r.state) == Max(TipHeight(s), b.height)
      && LatestBlocks(r.events) == (if Advances(s, b) then [b] else [])
      && |r.events| == (if Advances(s, b) then 3 else 1)
      && (Advances(s, b) ==> r.events[0] == LatestEvent(b) && r.events[1] == SyncEvent(b, s.currentBlock))
      && (SyncEvent(b, s.currentBlock) in r.events <==> Advances(s, b))
      && (forall e :: e in r.events && e.SyncEvent? ==> e == SyncEvent(b, s.currentBlock))
      && BlockEventCount(r.events) == 1
      && r.events[|r.events| - 1] == BlockEvent(r.state.currentBlock)
    ensures Valid(s) ==> Valid(r.state)
  {
    Ingest(decode, s, data, TipHeight(s))
  }

  /**
    The body of `_handler`, given the number it reads for the tip: the block
    advances the tip when its height exceeds `tipNumber`.
  */
  function Ingest(decode: Decoder, s: State, data: Bytes, tipNumber: nat): (r: Step)
    ensures !decode(data).Decoded? ==> r.state == s && r.events == []
    ensures decode(data).Decoded? ==>
      var b := decode(data).block;
      && r.state.blocks == s.blocks[b.height := b]
      && r.state.peerHeader == s.peerHeader
      && (b.height > tipNumber ==> r.state.currentBlock == Some(b) && r.state.oldBlock == s.currentBlock)
      && (b.height <= tipNumber ==> r.state.currentBlock == s.currentBlock && r.state.oldBlock == s.oldBlock)
      && LatestBlocks(r.events) == (if b.height > tipNumber then [b] else [])
      && |r.events| == (if b.height > tipNumber then 3 else 1)
      && (b.height > tipNumber ==> r.events[0] == LatestEvent(b) && r.events[1] == SyncEvent(b, s.currentBlock))
      && r.events[|r.events| - 1] == BlockEvent(r.state.currentBlock)
    ensures BlockEventCount(r.events) == (if decode(data).Decoded? then 1 else 0)
  {
    match decode(data)
    case Decoded(b) =>
      var cached := s.blocks[b.height := b];
      if b.height > tipNumber then
        var events := [LatestEvent(b), SyncEvent(b, s.currentBlock), BlockEvent(Some(b))];
        assert events[..2][..1] == events[..1] && events[..1][..0] == [];
        assert LatestBlocks(events[..1]) == [b] && BlockEventCount(events[..1]) == 0;
        assert LatestBlocks(events[..2]) == [b] && BlockEventCount(events[..2]) == 0;
        Step(s.(currentBlock := Some(b), oldBlock := s.currentBlock, blocks := cached), events)
      else
        Step(s.(blocks := cached), [BlockEvent(s.currentBlock)])
    case _ => Step(s, [])
  }

  /**
    `_handler` as written, should the block object carry no `number` of its
    own: the tip's number is then read as `bufferToInt(undefined)`, that is 0,
    so every block above height 0 becomes the tip, even one lower than the
    current tip.
  */
  function HandleAsWritten(decode: Decoder, s: State, data: Bytes): (r: Step)
    ensures !decode(data).Decoded? ==> r.state == s && r.events == []
    ensures decode(data).Decoded? && decode(data).block.height > 0 ==>
      var b := decode(data).block;
      && r.state.currentBlock == Some(b)
      && r.state.oldBlock == s.currentBlock
      && LatestBlocks(r.events) == [b]
    ensures decode(data).Decoded? && decode(data).block.height == 0 ==>
      && r.state.currentBlock == s.currentBlock
      && r.state.oldBlock == s.oldBlock
      && LatestBlocks(r.events) == []
    ensures decode(data).Decoded? ==>
      GetBlockByNumber(r.state, decode(data).block.height) == Some(decode(data).block)
  {
    Ingest(decode, s, data, 0)
  }

  /**
    The transport's forward gate for one (peer, message) attempt. A payload
    that does not decode, or decodes without a header, fails and records
    nothing. Otherwise the block's height is let through to that peer the
    first time, and recorded; every later attempt with the same peer and height is
    skipped. The gate never touches the tip or the block cache.
  */
  function Hook(decode: Decoder, s: State, peer: PeerId, data: Bytes): (r: HookStep)
    ensures r.state.currentBlock == s.currentBlock && r.state.oldBlock == s.oldBlock && r.state.blocks == s.blocks
    ensures decode(data).Malformed? ==> r == HookStep(s, Failed(DecodeFailed(decode(data).reason)))
    ensures decode(data).Headerless? ==> r == HookStep(s, Failed(NoBlockInMessage))
    ensures decode(data).Decoded? ==>
      var h := decode(data).block.height;
      && (r.verdict == Forward(data) <==> !Forwarded(s, peer, h))
      && (r.verdict != Forward(data) ==> r == HookStep(s, AlreadyForwarded(h)))
      && Forwarded(r.state, peer, h)
      && (forall p, k :: p != peer || k != h ==> (Forwarded(r.state, p, k) <==> Forwarded(s, p, k)))
    ensures Valid(s) ==> Valid(r.state)
  {
    match decode(data)
    case Malformed(reason) => HookStep(s, Failed(DecodeFailed(reason)))
    case Headerless => HookStep(s, Failed(NoBlockInMessage))
    case Decoded(b) =>
      var peerBlocks := if peer in s.peerHeader then s.peerHeader[peer] else {};
      if b.height !in peerBlocks then
        HookStep(s.(peerHeader := s.peerHeader[peer := peerBlocks + {b.height}]), Forward(data))
      else
        HookStep(s, AlreadyForwarded(b.height))
  }
}

=== FILE: wire.dfy ===
/** What the broadcast transport hands to the trackers. */
module Wire {
  /** A message payload as it travels on the topic. */
  type Bytes = seq<bv8>

  /** A peer's stable identity (its base58 id). */
  type PeerId = string

  /** One relay attempt: the peer the transport is about to forward to, and the payload. */
  datatype Attempt = Attempt(peer: PeerId, data: Bytes)
}

=== FILE: wrappers.dfy ===
/** The Option datatype used throughout the model. */
module Wrappers {

  /** The conventional Some/None datatype, standing for a value or JavaScript's `null`. */
  datatype Option<+T> = None | Some(value: T)
}
